=== FILE: README.md ===
# Tag modal selection and add-source wizard decisions, in Dafny

This project models the decision logic of two front-end pieces of a cloud
console:

- the **tag modal** (`TagModal.tsx`, `TableWithFilter.tsx`): a modal holding one
  table, or one table per tab, of rows the user selects. Its logic is the
  tri-state header checkbox (`calculateChecked`), deduplication by id
  (`unique`), row toggling, bulk select/deselect, the "Select none" and
  "Select page" menu entries, pagination callbacks, which table regions render,
  when Apply is enabled, the title, and the callbacks the buttons fire;
- the **add-source wizard schema** (`SourceAddSchema.js`): the asynchronous
  name-uniqueness verdict, the module-level "first validation" flag that picks
  an immediate or a debounced validator, the `nextStep` key, the option
  mutators (`appMutator`, `appMutatorRedHat`, `sourceTypeMutator`), the icon
  choice, the sorted option lists and the order of the wizard's steps.

Everything is a pure function over immutable values: rows are
`Row(id, payload)`, selections are `seq<Row>`, catalogs are sequences of
`SourceType` / `AppType` records. JavaScript `undefined` is `Option.None`, and
JavaScript truthiness of an optional string is `Options.Filled`.

Modules: `Options` (optional values, `find`), `Rows` (ids, subsequences,
`findIndex`, filtering by id), `Selection` (`calculateChecked`, `unique`),
`TableWithFilter`, `TagModal`, `Sorting` (a stable insertion sort under an
abstract collation), `Text` (`indexOf`, `replace` of the first occurrence,
`lastIndexOf`), `NameValidator`, `WizardOptions`, `WizardSteps`.

Inputs the code receives from outside are parameters: the name lookup's
outcome (`Lookup`), the active vendor (`redHatVendor`), the translated "None"
label, the collation (`leq`), the per-type step fragments, and the presence of
optional callbacks (`hasOnApply`, `hasOnUpdateData`, `hasOnSelect`).

Two behaviours of the code worth knowing when reading the model:

- `iconMapper` hands out an icon with no usable image source for a known type
  that has neither a compact icon nor an `icon_url`. `IconWithoutSource`
  states exactly when this happens.
- `calculateChecked` yields `false` when no row of the page is selected, and
  `null` only for a partial selection.

## Model

| member | source | states |
|---|---|---|
| Selection.CalculateChecked | packages/components/src/TagModal/TagModal.tsx:9-12 | Checked iff the page is non-empty and every row id is among the selected ids; Indeterminate iff some but not all are; Unchecked iff the page is empty or none is selected |
| Selection.MissingSelectionIsEmpty | packages/components/src/TagModal/TagModal.tsx:10-12 | an absent selection gives the same checkbox value as the empty one, namely unchecked |
| Rows.FindIndex | packages/components/src/TagModal/TagModal.tsx:15 | `findIndex` by id: -1 iff the id is absent, otherwise the index of the first entry carrying it |
| Selection.Unique | packages/components/src/TagModal/TagModal.tsx:14-15 | the `arr.filter(findIndex === index)` deduplication equals the left-to-right walk that keeps an entry unless its id was already kept; its properties are stated by the `Unique*` lemmas below |
| Selection.UniqueFromIsFirstSeen | packages/components/src/TagModal/TagModal.tsx:14-15 | the index filter of `unique` equals a left-to-right walk that skips ids already kept |
| Selection.UniqueNoDuplicateIds | packages/components/src/TagModal/TagModal.tsx:14-15 | `unique` output never holds two entries with the same id |
| Selection.UniqueKeepsFirstOccurrences | packages/components/src/TagModal/TagModal.tsx:14-15 | `unique` output is a subsequence of its input with the same id set, and each kept entry is the first occurrence of its id |
| Selection.UniqueIdempotent | packages/components/src/TagModal/TagModal.tsx:14-15 | `unique(unique(arr)) == unique(arr)` |
| Selection.UniqueOfDistinct | packages/components/src/TagModal/TagModal.tsx:14-15 | a sequence whose ids are already distinct is returned unchanged |
| TagModal.ApplyDisabled | packages/components/src/TagModal/TagModal.tsx:110-112 | single mode: disabled iff the selection is missing or empty; tabbed mode: enabled iff some tab has a present, non-empty selection |
| TagModal.Title | packages/components/src/TagModal/TagModal.tsx:102 | the title is `title` when non-empty, otherwise "Tags for " followed by the system name; it is never empty |
| TagModal.Respond | packages/components/src/TagModal/TagModal.tsx:103-124 | Apply and Cancel exist only with `onApply`, and a disabled Apply ignores clicks; `onApply` fires exactly once iff the gesture is an enabled Confirm, and always before `toggleModal(e, true)`; every gesture that does something ends in exactly one `toggleModal` whose flag says whether it committed |
| TagModal.ApplyFiresOnlyWithSelection | packages/components/src/TagModal/TagModal.tsx:106-117 | `onApply` is called iff the gesture is Confirm, the modal has `onApply`, and some entry of the `selected` prop is present and non-empty (in tabbed mode, possibly one past the last tab) |
| TagModal.TabTables | packages/components/src/TagModal/TagModal.tsx:126-142 | one table per tab name; tab k is titled after the k-th name and gets the k-th rows, pagination, loaded flag and selection, or nothing past the end of an input |
| TagModal.ApplyEnabledIffSomeTabSelected | packages/components/src/TagModal/TagModal.tsx:110-140 | with no more selections than tabs, Apply is enabled iff some tab's table was handed a non-empty selection |
| TagModal.SelectionPastLastTabEnablesApply | packages/components/src/TagModal/TagModal.tsx:110-140 | with more selections than tabs, a non-empty selection past the last tab enables Apply although every tab's table is handed an empty one |
| TableWithFilter.OnRowSelect | packages/components/src/TagModal/TableWithFilter.tsx:57-62 | out-of-range row index: nothing emitted; select: the row is appended after the unchanged selection, without deduplication; deselect: every entry with that id is removed, the others kept in order and multiplicity |
| Rows.RemoveIds | packages/components/src/TagModal/TableWithFilter.tsx:60 | filtering by id yields a subsequence holding none of the removed ids and every other entry as often as before |
| TableWithFilter.SelectThenDeselect | packages/components/src/TagModal/TableWithFilter.tsx:57-62 | selecting then deselecting a row removes all entries with its id; when the id was not selected before, the selection is restored exactly |
| TableWithFilter.BulkSelect | packages/components/src/TagModal/TableWithFilter.tsx:72-78 | ticking yields exactly the left-to-right walk over page rows then selection that skips ids already kept: no duplicate id, the union of their ids, page rows first, and for each id its first entry (the page's when both hold it); unticking removes exactly the entries whose id is on the page and keeps the rest in order and multiplicity |
| TableWithFilter.BulkSelectDrivesCheckbox | packages/components/src/TagModal/TableWithFilter.tsx:72-79 | after ticking, a non-empty page reads Checked; after unticking it reads Unchecked |
| TableWithFilter.ClickBulkItem | packages/components/src/TagModal/TableWithFilter.tsx:66-93 | the menu exists only with an update callback, a selection callback and a pagination object; there "Select none" yields the empty selection, and "Select page" acts iff the page is loaded and non-empty, yielding a duplicate-free selection covering page and previous ids |
| TableWithFilter.SelectPageIsBulkSelect | packages/components/src/TagModal/TableWithFilter.tsx:72-91 | where the menu exists, "Select page" gives the same selection as ticking the bulk checkbox |
| TableWithFilter.ToolbarPagination | packages/components/src/TagModal/TableWithFilter.tsx:66-113 | no toolbar iff there is no update callback; a pager skeleton iff the toolbar exists and data is not loaded; otherwise page controls over the copied `count`, `page` and `perPage` |
| TableWithFilter.ToolbarPagerMatchesBody | packages/components/src/TagModal/TableWithFilter.tsx:102-164 | with a toolbar, its pager skeleton shows exactly while the table body is the loading skeleton, and its page controls only next to loaded data |
| TableWithFilter.HeaderChecked | packages/components/src/TagModal/TableWithFilter.tsx:79 | unchecked whenever data is not loaded; once loaded it is `calculateChecked` of the page: checked iff the non-empty page is wholly selected, indeterminate iff partly selected |
| TableWithFilter.OnSetPage | packages/components/src/TagModal/TableWithFilter.tsx:107 | only `page` changes; `count` and `perPage` are copied |
| TableWithFilter.OnPerPageSelect | packages/components/src/TagModal/TableWithFilter.tsx:108 | `perPage` is set, `page` resets to 1, `count` is copied |
| TableWithFilter.PagingKeepsCountAndInvariant | packages/components/src/TagModal/TableWithFilter.tsx:172-173 | from a valid pagination (page >= 1, perPage > 0 where present) and over any sequence of valid pager events (pages from 1, sizes above 0) fed back by the host, `count` never changes and the validity is preserved |
| TableWithFilter.PerPageResetsPage | packages/components/src/TagModal/TableWithFilter.tsx:107-108 | choosing a page size after any page change gives the same state as choosing it directly |
| TableWithFilter.SkeletonRowCount | packages/components/src/TagModal/TableWithFilter.tsx:163 | the skeleton has exactly `perPage` rows when pagination has a non-zero `perPage`, and 10 when pagination or `perPage` is absent or 0; never 0 rows |
| TableWithFilter.Body | packages/components/src/TagModal/TableWithFilter.tsx:118-164 | exactly one of skeleton (not loaded), empty notice (loaded, no rows), populated table (loaded, rows) |
| TableWithFilter.FooterShown | packages/components/src/TagModal/TableWithFilter.tsx:165 | the footer renders iff there is an update callback, a pagination object and loaded data; whenever it renders, the top toolbar shows page controls over the same pagination |
| TableWithFilter.FooterOnlyWithData | packages/components/src/TagModal/TableWithFilter.tsx:165 | whenever the footer pagination renders, the body is not the loading skeleton |
| NameValidator.FindOther | packages/sources/src/addSourceWizard/SourceAddSchema.js:27 | finds an id of a source other than the edited one, or none iff every id is the edited one |
| NameValidator.AsyncValidator | packages/sources/src/addSourceWizard/SourceAddSchema.js:14-32 | a lookup is made iff the name is non-empty; the name is taken iff the name is non-empty, the lookup succeeded and some returned id differs from the edited source's id; a failed lookup passes |
| NameValidator.EditingSelfIsAccepted | packages/sources/src/addSourceWizard/SourceAddSchema.js:27-31 | results holding only the edited record pass |
| NameValidator.NameStepRejectsAnyMatch | packages/sources/src/addSourceWizard/SourceAddSchema.js:294 | the name step passes no exclusion id, so the name is taken iff it is non-empty and the lookup returned any source |
| NameValidator.Replay | packages/sources/src/addSourceWizard/SourceAddSchema.js:34-47 | starting from the module's initial `true`, a wrapper call gets the immediate validator iff it is the first event or directly follows a schema build; every other call gets the debounced one |
| WizardOptions.AppMutator | packages/sources/src/addSourceWizard/SourceAddSchema.js:78-90 | value-less options are unchanged; otherwise only `isDisabled` is set, true iff a source type is selected that the first application with the option's label does not support |
| WizardOptions.AppMutatorRedHat | packages/sources/src/addSourceWizard/SourceAddSchema.js:92-102 | the option is dropped iff a source type is selected that its application does not support, otherwise returned unchanged |
| WizardOptions.RedHatDropsWhatOpenDisables | packages/sources/src/addSourceWizard/SourceAddSchema.js:78-102 | for options with a value, Red Hat mode drops exactly the options open mode disables |
| WizardOptions.SourceTypeMutator | packages/sources/src/addSourceWizard/SourceAddSchema.js:104-112 | value, label and key are kept; disabled iff an application is chosen whose supported list lacks the name of the type carrying this label |
| WizardOptions.RedHatOptionLabelUnknown | packages/sources/src/addSourceWizard/SourceAddSchema.js:54-58 | the option of a Red Hat type named "Red Hat X" is labelled "X", which differs from the type's product name; for the catalog holding only that type, `sourceTypeMutator`'s lookup succeeds iff no application is chosen |
| WizardOptions.SourceTypeMutatorByName | packages/sources/src/addSourceWizard/SourceAddSchema.js:104-112 | corrected mutator: value, label and key kept; disabled iff an application is chosen whose supported list lacks the option's own value (the type name) |
| WizardOptions.ByNameAgreesWhenLabelFound | packages/sources/src/addSourceWizard/SourceAddSchema.js:104-112 | wherever the source's label lookup finds the option's own type, the corrected mutator returns the same option |
| WizardOptions.ByNameDecidesOnOwnType | packages/sources/src/addSourceWizard/SourceAddSchema.js:49-60 | for every compiled source option, Red Hat ones included, the corrected mutator disables it iff the chosen application does not support that type |
| WizardOptions.IconMapper | packages/sources/src/addSourceWizard/SourceAddSchema.js:114-137 | no icon iff the type is unknown, or has an `icon_url` and no compact icon; otherwise the compact icon if listed, else the type's `icon_url`, with the product name as alt text |
| WizardOptions.IconWithoutSource | packages/sources/src/addSourceWizard/SourceAddSchema.js:126-131 | an icon without a usable source is produced iff the type is known, has no `icon_url` and no compact icon |
| Text.RemoveFirst | packages/sources/src/addSourceWizard/SourceAddSchema.js:54 | `replace(pat, '')` leaves a string without `pat` unchanged, and otherwise removes the first occurrence: reinserting `pat` there restores the input |
| WizardOptions.RedHatPrefixDropped | packages/sources/src/addSourceWizard/SourceAddSchema.js:54 | a Red Hat product named "Red Hat X" is labelled "X" |
| Sorting.SortBy | packages/sources/src/addSourceWizard/SourceAddSchema.js:71 | the result is sorted by key under the collation and is a permutation of the input |
| Sorting.SortMapCommute | packages/sources/src/addSourceWizard/SourceAddSchema.js:55-58 | sorting records and then mapping them to options equals mapping first and sorting the options by label |
| WizardOptions.CompileSourceOptions | packages/sources/src/addSourceWizard/SourceAddSchema.js:49-60 | one option per source type, as a multiset exactly the relabelled types, sorted by label |
| WizardOptions.CompileAppOptions | packages/sources/src/addSourceWizard/SourceAddSchema.js:62-76 | a leading "None" entry (the only value-less one) iff the vendor is not Red Hat, then one option per application, sorted by display name, as a multiset exactly the applications |
| WizardOptions.ApplicationStepOptions | packages/sources/src/addSourceWizard/SourceAddSchema.js:220-223 | an option for an application is offered iff the application supports the preselected source type; the options are sorted by display name, as a multiset exactly the supporting applications, behind the "None" entry iff the vendor is not Red Hat |
| WizardOptions.ApplicationStepMembers | packages/sources/src/addSourceWizard/SourceAddSchema.js:220-223 | every valued option offered for a preselected source type is that of an application supporting it, and every such application's option is offered |
| WizardOptions.CompiledAppOptionsMembers | packages/sources/src/addSourceWizard/SourceAddSchema.js:62-76 | the compiled list holds an option for every application, and every other valued entry is one application's option |
| WizardSteps.NextStep | packages/sources/src/addSourceWizard/SourceAddSchema.js:139-144 | "source_type-appId" when an application id is chosen, otherwise the source type alone |
| WizardSteps.NextStepReadsBack | packages/sources/src/addSourceWizard/SourceAddSchema.js:139-144 | for application ids without `-` and, with no application chosen, a source type without `-`, splitting the key at its last `-` recovers the source type and the chosen id |
| WizardSteps.NextStepInjective | packages/sources/src/addSourceWizard/SourceAddSchema.js:139-144 | different choices lead to different step keys, for application ids without `-` and, with no application chosen, source types without `-` |
| WizardSteps.AssembleSteps | packages/sources/src/addSourceWizard/SourceAddSchema.js:337-377 | name step leading to the types step, then the types step (application step when a type is preselected) choosing its successor from the form values, then the fragments in order, then the final summary |
| WizardSteps.SummaryIsOnlyFinalStep | packages/sources/src/addSourceWizard/SourceAddSchema.js:317-375 | when no fragment is final, the summary is the only step that ends the wizard |

## Findings

| source | as written | input that shows it | evidently intended | confidence | as-written member | corrected member |
|---|---|---|---|---|---|---|
| packages/sources/src/addSourceWizard/SourceAddSchema.js:104-112 | `sourceTypeMutator` looks the option's type up by `product_name === option.label`, but the option lists built at lines 49-60 label Red Hat types with "Red Hat " removed | open-vendor mode, a catalog type `{name: "openshift", product_name: "Red Hat OpenShift", vendor: "Red Hat"}` (option label "OpenShift") and any chosen application: `find` returns `undefined` and `.name` throws | decide on the option's own type, whose name is the option's `value` | medium (depends on Red Hat types appearing in open-vendor catalogs); not executed | WizardOptions.SourceTypeMutator, WizardOptions.RedHatOptionLabelUnknown | WizardOptions.SourceTypeMutatorByName |

## Left out

- Rendering: JSX, PatternFly components, CSS classes (including the vendor-based icon class), aria labels and the empty-state text are presentation.
- `intl.formatMessage`, `WIZARD_TITLE` and `WIZARD_DESCRIPTION` are opaque strings; only the "None" label is a parameter.
- `findSource`, `handleError` and `console.error` are network and logging; the lookup's outcome is the `Lookup` input.
- `debouncePromise` timing and the race between in-flight lookups are concurrency; only the immediate/debounced choice is modelled. Both validators give the same verdict for the same lookup outcome.
- `localeCompare` is locale-dependent; it is an abstract total preorder `leq`.
- Sorting.SortBy: stability is not stated, only sortedness and permutation.
- `Array.prototype.sort` mutating `applicationTypes` in place (SourceAddSchema.js:71) is not modelled.
- `schemaBuilder`, `ValidatorReset` and `validated` are external; their steps are an opaque `fragments` sequence, and the field lists inside the name, types, application and summary steps are declarative data not modelled.
- WizardOptions.AppMutator: the `find` by label can return `undefined` and then crash; success of that lookup is a precondition.
- WizardOptions.AppMutatorRedHat: same precondition on the label lookup.
- WizardOptions.SourceTypeMutator: same precondition on the label lookup; see Findings for the inputs where it fails.
- TableWithFilter.BulkSelect: assumes a present selection and a present `rows`; with `rows` undefined (as a tab past the end of the rows array receives), ticking throws at TableWithFilter.tsx:74 and unticking a non-empty selection throws at line 76, while the model reads absent rows as empty.
- TableWithFilter.OnRowSelect: assumes a present selection; with an absent one `[...selected, currRow]` and `selected.filter` throw (TableWithFilter.tsx:60).
- TableWithFilter.ClickBulkItem: assumes a present selection for "Select page"; spreading an absent one throws (TableWithFilter.tsx:89).
- TagModal.TabTables: carries only rows, pagination, loaded flag and selection; the per-tab `columns`, `filters`, `onSelect`, `onUpdateData` and `bulkSelect` (TagModal.tsx:131-139) are indexed the same way but not modelled, so which callback receives a tab's selection is not stated.
- A caller-supplied `bulkSelect` object overriding the bulk-select props (TableWithFilter.tsx:94) is not modelled.
- The bulk-select counter (`count: selected?.length`, TableWithFilter.tsx:71) and the toolbar's `itemCount` (line 105) are display values and not modelled.
- `handleTabClick` and the active tab (TagModal.tsx:44-46, 59-61): view state written under a key the initial state does not declare; not modelled.
- `render` reading undeclared bare identifiers (TagModal.tsx:95-111) is treated as reading the props of the same name.
- The `onSelect()` call used as a guard for row selection (TableWithFilter.tsx:153) and the columns, filters and toolbar props passed through to the table are not modelled.
- Source ids in the wizard are strings; JavaScript's strict inequality between a string id and a numeric one is not modelled.

=== FILE: lists.dfy ===
/** The array methods the wizard uses on its catalogs: `map` and `filter`. */
module Lists {

  /** `s.map(f)`. */
  function MapSeq<A, B>(f: A -> B, s: seq<A>): (r: seq<B>)
    ensures |r| == |s|
    ensures forall k :: 0 <= k < |s| ==> r[k] == f(s[k])
    decreases |s|
  {
    if |s| == 0 then [] else [f(s[0])] + MapSeq(f, s[1..])
  }

  /** Mapping through `f` and then `g` is mapping through their composite `h`. */
  lemma MapCompose<A, B, C>(g: B -> C, f: A -> B, h: A -> C, s: seq<A>)
    requires forall a :: h(a) == g(f(a))
    ensures MapSeq(g, MapSeq(f, s)) == MapSeq(h, s)
  {
  }

  /** `s.filter(p)`: the entries satisfying `p`, each as often as in `s`. */
  function FilterSeq<T(==)>(p: T -> bool, s: seq<T>): (r: seq<T>)
    ensures forall k :: 0 <= k < |r| ==> p(r[k])
    ensures forall x :: x in s && p(x) ==> x in r
    ensures forall x :: x in r ==> x in s
    ensures forall x :: x in s ==> multiset(r)[x] == (if p(x) then multiset(s)[x] else 0)
    decreases |s|
  {
    if |s| == 0 then []
    else
      var rest := FilterSeq(p, s[1..]);
      assert s == [s[0]] + s[1..];
      assert forall x :: x in s ==> x == s[0] || x in s[1..];
      if p(s[0]) then [s[0]] + rest else rest
  }
}

=== FILE: name_validator.dfy ===
/** The asynchronous source-name uniqueness check of the add-source wizard
    and the module-level flag choosing its immediate or debounced form. */
module NameValidator {
  import opened Options

  /** Outcome of looking the name up: the request failed, or it returned
      the ids of the sources carrying that name. */
  datatype Lookup = LookupFailed | Found(ids: seq<string>)

  datatype Verdict = Accepted | NameTaken

  /** A verdict, and the name sent to the lookup (`None`: no request). */
  datatype Validation = Validation(verdict: Verdict, queried: Option<string>)

  /** `id !== sourceId`: an id differs from an absent exclusion id always. */
  predicate Differs(id: string, sourceId: Option<string>) {
    sourceId.None? || id != sourceId.value
  }

  /** `ids.find(id => id !== sourceId)`: the first id of another source. */
  function FindOther(ids: seq<string>, sourceId: Option<string>): (r: Option<string>)
    ensures r.None? <==> forall k :: 0 <= k < |ids| ==> !Differs(ids[k], sourceId)
    ensures r.Some? ==> r.value in ids && Differs(r.value, sourceId)
  {
    if |ids| == 0 then None
    else if Differs(ids[0], sourceId) then Some(ids[0])
    else
      var r := FindOther(ids[1..], sourceId);
      assert forall k :: 1 <= k < |ids| ==> ids[k] == ids[1..][k - 1];
      r
  }

  /** `asyncValidator(value, sourceId)`: an empty name passes without a
      request; a failed lookup passes (the error is only logged); a name
      carried by a source other than the one being edited is taken. */
  function AsyncValidator(value: Option<string>, sourceId: Option<string>, lookup: Lookup): (v: Validation)
    ensures v.queried == (if Filled(value) then value else None)
    ensures v.verdict == NameTaken <==>
      Filled(value) && lookup.Found? &&
      exists k :: 0 <= k < |lookup.ids| && Differs(lookup.ids[k], sourceId)
  {
    if !Filled(value) then Validation(Accepted, None)
    else if lookup.LookupFailed? then Validation(Accepted, value)
    else if FindOther(lookup.ids, sourceId).Some? then Validation(NameTaken, value)
    else Validation(Accepted, value)
  }

  /** Editing a source: results holding only the edited record pass. */
  lemma EditingSelfIsAccepted(value: Option<string>, self: string, n: nat)
    ensures AsyncValidator(value, Some(self), Found(seq(n, _ => self))).verdict == Accepted
  {
  }

  /** The name step validates with no exclusion id, so any source already
      carrying the name makes it taken. */
  lemma NameStepRejectsAnyMatch(value: Option<string>, lookup: Lookup)
    ensures AsyncValidator(value, None, lookup).verdict == NameTaken <==>
            Filled(value) && lookup.Found? && |lookup.ids| > 0
  {
    if Filled(value) && lookup.Found? && |lookup.ids| > 0 {
      assert Differs(lookup.ids[0], None);
    }
  }

  /** Which validator the wrapper hands out. */
  datatype ValidatorKind = Immediate | Debounced

  /** What happens to the flag: the schema is built (`setFirstValidated(true)`)
      or the name field calls `asyncValidatorDebouncedWrapper`. */
  datatype Event = SchemaBuilt | WrapperCalled

  /** One event against the flag: the new flag and, for a wrapper call, the
      validator it returned. */
  function Step(first: bool, e: Event): (bool, Option<ValidatorKind>) {
    match e
    case SchemaBuilt => (true, None)
    case WrapperCalled => if first then (false, Some(Immediate)) else (false, Some(Debounced))
  }

  /** Replays events from module load, where the flag starts true. A wrapper
      call gets the immediate validator exactly when it is the first event or
      directly follows a schema build; every other call gets the debounced one. */
  method Replay(events: seq<Event>) returns (kinds: seq<Option<ValidatorKind>>)
    ensures |kinds| == |events|
    ensures forall i :: 0 <= i < |events| && events[i] == SchemaBuilt ==> kinds[i] == None
    ensures forall i :: 0 <= i < |events| && events[i] == WrapperCalled ==>
      kinds[i] == Some(if i == 0 || events[i - 1] == SchemaBuilt then Immediate else Debounced)
  {
    var first := true;
    kinds := [];
    var i := 0;
    while i < |events|
      invariant 0 <= i <= |events|
      invariant |kinds| == i
      invariant first <==> (i == 0 || events[i - 1] == SchemaBuilt)
      invariant forall j :: 0 <= j < i && events[j] == SchemaBuilt ==> kinds[j] == None
      invariant forall j :: 0 <= j < i && events[j] == WrapperCalled ==>
        kinds[j] == Some(if j == 0 || events[j - 1] == SchemaBuilt then Immediate else Debounced)
    {
      var (next, out) := Step(first, events[i]);
      first := next;
      kinds := kinds + [out];
      i := i + 1;
    }
  }
}

=== FILE: options.dfy ===
/** Optional values, standing in for JavaScript's `undefined`. */
module Options {

  /** `None` is an absent (undefined) value, `Some(v)` a present one. */
  datatype Option<+T> = None | Some(value: T)

  /** JavaScript truthiness of an optional string: present and non-empty. */
  predicate Filled(o: Option<string>) {
    o.Some? && o.value != ""
  }

  /** The `k`-th element of `s`, or `None` past its end (JavaScript `s?.[k]`). */
  function At<T>(s: seq<T>, k: nat): (r: Option<T>)
    ensures r.Some? <==> k < |s|
    ensures r.Some? ==> r.value == s[k]
  {
    if k < |s| then Some(s[k]) else None
  }

  /** `k` is the first index of `s` whose element satisfies `p`. */
  predicate IsFirst<T>(s: seq<T>, p: T -> bool, k: int) {
    0 <= k < |s| && p(s[k]) && forall j :: 0 <= j < k ==> !p(s[j])
  }

  /** First element satisfying `p`, or `None` (JavaScript `Array.prototype.find`). */
  function Find<T>(s: seq<T>, p: T -> bool): (r: Option<T>)
    ensures r.None? <==> forall k :: 0 <= k < |s| ==> !p(s[k])
    ensures r.Some? ==> exists k :: IsFirst(s, p, k) && s[k] == r.value
  {
    if |s| == 0 then None
    else if p(s[0]) then Some(s[0])
    else
      var r := Find(s[1..], p);
      assert forall k :: 1 <= k < |s| ==> s[k] == s[1..][k - 1];
      if r.Some? then
        assert exists k :: IsFirst(s, p, k) && s[k] == r.value by {
          var k :| IsFirst(s[1..], p, k) && s[1..][k] == r.value;
          assert IsFirst(s, p, k + 1);
        }
        r
      else r
  }
}

=== FILE: rows.dfy ===
/** Table rows and the id-based vocabulary every selection operation uses. */
module Rows {

  /** A table row. Selection compares rows by `id` only; `payload` stands
      for every other field of the row object (its cells, its props). */
  datatype Row = Row(id: int, payload: string)

  /** The ids occurring in `s`. */
  function IdSet(s: seq<Row>): set<int>
    decreases |s|
  {
    if |s| == 0 then {} else {s[0].id} + IdSet(s[1..])
  }

  /** No two entries of `s` share an id. */
  predicate NoDupIds(s: seq<Row>) {
    forall i, j :: 0 <= i < j < |s| ==> s[i].id != s[j].id
  }

  /** `a` is `b` with some entries deleted, the rest kept in order. */
  predicate IsSubseq<T(==)>(a: seq<T>, b: seq<T>)
    decreases |b|
  {
    if |a| == 0 then true
    else if |b| == 0 then false
    else (a[0] == b[0] && IsSubseq(a[1..], b[1..])) || IsSubseq(a, b[1..])
  }

  lemma {:induction false} IdSetConcat(a: seq<Row>, b: seq<Row>)
    ensures IdSet(a + b) == IdSet(a) + IdSet(b)
    decreases |a|
  {
    if |a| > 0 {
      assert (a + b)[1..] == a[1..] + b;
      IdSetConcat(a[1..], b);
    } else {
      assert a + b == b;
    }
  }

  lemma {:induction false} IdSetIndex(s: seq<Row>, id: int)
    ensures id in IdSet(s) <==> exists k :: 0 <= k < |s| && s[k].id == id
    decreases |s|
  {
    if |s| > 0 {
      IdSetIndex(s[1..], id);
      assert forall k :: 1 <= k < |s| ==> s[k] == s[1..][k - 1];
      if id in IdSet(s[1..]) {
        var k :| 0 <= k < |s[1..]| && s[1..][k].id == id;
        assert s[k + 1].id == id;
      }
    }
  }

  /** Every element of a subsequence comes from the sequence. */
  lemma {:induction false} SubseqElements<T>(a: seq<T>, b: seq<T>)
    requires IsSubseq(a, b)
    ensures forall x :: x in a ==> x in b
    decreases |b|
  {
    if |a| > 0 {
      if a[0] == b[0] && IsSubseq(a[1..], b[1..]) {
        SubseqElements(a[1..], b[1..]);
        assert a == [a[0]] + a[1..];
        assert b == [b[0]] + b[1..];
      } else {
        SubseqElements(a, b[1..]);
        assert b == [b[0]] + b[1..];
      }
    }
  }

  /** Index of the first entry with id `id`, or -1 (JavaScript `findIndex`). */
  function FindIndex(s: seq<Row>, id: int): (k: int)
    ensures -1 <= k < |s|
    ensures k == -1 <==> id !in IdSet(s)
    ensures 0 <= k ==> s[k].id == id && forall j :: 0 <= j < k ==> s[j].id != id
  {
    if |s| == 0 then -1
    else if s[0].id == id then 0
    else
      var k := FindIndex(s[1..], id);
      if k == -1 then -1 else k + 1
  }

  /** `s` without every entry whose id is in `ids`, the others in order
      (JavaScript `s.filter(({ id }) => !removed(id))`). */
  function RemoveIds(s: seq<Row>, ids: set<int>): (r: seq<Row>)
    ensures IsSubseq(r, s)
    ensures forall k :: 0 <= k < |r| ==> r[k].id !in ids
    ensures forall x: Row :: x.id !in ids ==> multiset(r)[x] == multiset(s)[x]
    ensures IdSet(r) == IdSet(s) - ids
    decreases |s|
  {
    if |s| == 0 then []
    else
      var rest := RemoveIds(s[1..], ids);
      assert s == [s[0]] + s[1..];
      if s[0].id in ids then rest
      else
        assert ([s[0]] + rest)[1..] == rest;
        [s[0]] + rest
  }

  /** Removing ids nobody carries changes nothing. */
  lemma {:induction false} RemoveIdsAbsent(s: seq<Row>, ids: set<int>)
    requires IdSet(s) !! ids
    ensures RemoveIds(s, ids) == s
    decreases |s|
  {
    if |s| > 0 {
      RemoveIdsAbsent(s[1..], ids);
      assert s == [s[0]] + s[1..];
    }
  }

  /** Removal distributes over concatenation. */
  lemma {:induction false} RemoveIdsConcat(a: seq<Row>, b: seq<Row>, ids: set<int>)
    ensures RemoveIds(a + b, ids) == RemoveIds(a, ids) + RemoveIds(b, ids)
    decreases |a|
  {
    if |a| > 0 {
      assert (a + b)[1..] == a[1..] + b;
      RemoveIdsConcat(a[1..], b, ids);
    } else {
      assert a + b == b;
    }
  }
}

=== FILE: selection.dfy ===
/** The two pure helpers the tag modal hands to every table:
    the tri-state header checkbox and deduplication by id. */
module Selection {
  import opened Options
  import opened Rows

  /** The bulk checkbox value: JavaScript `true`, `false` or `null`. */
  datatype Tri = Checked | Unchecked | Indeterminate

  /** Row id `id` is selected: the selection is present and holds an
      entry with that id (`selected && selected.find(...)`). */
  predicate IsSelected(id: int, selected: Option<seq<Row>>) {
    selected.Some? && id in IdSet(selected.value)
  }

  /** `rows.every(...)`, scanned left to right. */
  function AllSelected(rows: seq<Row>, selected: Option<seq<Row>>): (b: bool)
    ensures b <==> forall k :: 0 <= k < |rows| ==> IsSelected(rows[k].id, selected)
  {
    if |rows| == 0 then true
    else if !IsSelected(rows[0].id, selected) then false
    else
      var b := AllSelected(rows[1..], selected);
      assert forall k :: 1 <= k < |rows| ==> rows[k] == rows[1..][k - 1];
      b
  }

  /** `rows.some(...)`, scanned left to right. */
  function AnySelected(rows: seq<Row>, selected: Option<seq<Row>>): (b: bool)
    ensures b <==> exists k :: 0 <= k < |rows| && IsSelected(rows[k].id, selected)
  {
    if |rows| == 0 then false
    else if IsSelected(rows[0].id, selected) then true
    else
      var b := AnySelected(rows[1..], selected);
      assert forall k :: 1 <= k < |rows| ==> rows[k] == rows[1..][k - 1];
      b
  }

  /** The header checkbox for one page of rows: checked when the page is
      non-empty and fully selected, indeterminate when partly selected,
      unchecked when nothing on it is selected or it is empty. */
  function CalculateChecked(rows: seq<Row>, selected: Option<seq<Row>>): (c: Tri)
    ensures c == Checked <==>
      |rows| > 0 && forall k :: 0 <= k < |rows| ==> IsSelected(rows[k].id, selected)
    ensures c == Indeterminate <==>
      (exists k :: 0 <= k < |rows| && IsSelected(rows[k].id, selected)) &&
      (exists k :: 0 <= k < |rows| && !IsSelected(rows[k].id, selected))
    ensures c == Unchecked <==>
      |rows| == 0 || forall k :: 0 <= k < |rows| ==> !IsSelected(rows[k].id, selected)
  {
    if AllSelected(rows, selected) then
      (if |rows| > 0 then Checked else Unchecked)
    else if AnySelected(rows, selected) then Indeterminate
    else Unchecked
  }

  /** A missing selection behaves as the empty one. */
  lemma MissingSelectionIsEmpty(rows: seq<Row>)
    ensures CalculateChecked(rows, None) == CalculateChecked(rows, Some([]))
    ensures CalculateChecked(rows, None) == Unchecked
  {
  }

  /** Keeps the entries of `s` from index `i` on whose id occurs first at
      that index (`arr.filter((x, index) => arr.findIndex(...) === index)`). */
  function UniqueFrom(s: seq<Row>, i: nat): seq<Row>
    requires i <= |s|
    decreases |s| - i
  {
    if i == |s| then []
    else (if FindIndex(s, s[i].id) == i then [s[i]] else []) + UniqueFrom(s, i + 1)
  }

  /** Deduplication by id, keeping the first occurrence of each id: the
      index filter agrees with the left-to-right walk over `s`. */
  function Unique(s: seq<Row>): (r: seq<Row>)
    ensures r == FirstSeen(s, {})
  {
    UniqueFromIsFirstSeen(s, 0);
    assert s[0..] == s;
    assert s[..0] == [];
    UniqueFrom(s, 0)
  }

  /** Reference definition of deduplication: walk left to right, keeping an
      entry unless its id was already kept or is in `seen`. */
  function FirstSeen(s: seq<Row>, seen: set<int>): seq<Row>
    decreases |s|
  {
    if |s| == 0 then []
    else if s[0].id in seen then FirstSeen(s[1..], seen)
    else [s[0]] + FirstSeen(s[1..], seen + {s[0].id})
  }

  /** Index `i` holds the first occurrence of its id exactly when no
      earlier entry carries that id. */
  lemma FirstOccurrenceAt(s: seq<Row>, i: nat)
    requires i < |s|
    ensures FindIndex(s, s[i].id) == i <==> s[i].id !in IdSet(s[..i])
  {
    var id := s[i].id;
    var k := FindIndex(s, id);
    IdSetIndex(s[..i], id);
    if id in IdSet(s[..i]) {
      var j :| 0 <= j < i && s[..i][j].id == id;
      assert s[j].id == id;
    } else {
      assert forall j :: 0 <= j < i ==> s[j].id != id by {
        forall j | 0 <= j < i ensures s[j].id != id {
          assert s[..i][j] == s[j];
        }
      }
      IdSetIndex(s, id);
      assert id in IdSet(s);
      assert k != -1;
      assert k <= i;
    }
  }

  /** The index filter of `unique` and the left-to-right walk agree. */
  lemma {:induction false} UniqueFromIsFirstSeen(s: seq<Row>, i: nat)
    requires i <= |s|
    ensures UniqueFrom(s, i) == FirstSeen(s[i..], IdSet(s[..i]))
    decreases |s| - i
  {
    if i < |s| {
      UniqueFromIsFirstSeen(s, i + 1);
      FirstOccurrenceAt(s, i);
      var seen := IdSet(s[..i]);
      assert s[..i + 1] == s[..i] + [s[i]];
      IdSetConcat(s[..i], [s[i]]);
      assert IdSet(s[..i + 1]) == seen + {s[i].id};
      var t := s[i..];
      assert t[1..] == s[i + 1..];
      assert t[0] == s[i];
      if s[i].id in seen {
        assert seen + {s[i].id} == seen;
        calc {
          UniqueFrom(s, i);
          UniqueFrom(s, i + 1);
          FirstSeen(t[1..], seen);
          FirstSeen(t, seen);
        }
      } else {
        calc {
          UniqueFrom(s, i);
          [s[i]] + UniqueFrom(s, i + 1);
          [t[0]] + FirstSeen(t[1..], seen + {t[0].id});
          FirstSeen(t, seen);
        }
      }
    }
  }

  /** Each entry of `r` is the first entry of `s` carrying its id. */
  predicate FirstOccurrences(r: seq<Row>, s: seq<Row>) {
    forall k :: 0 <= k < |r| ==> r[k].id in IdSet(s) && r[k] == s[FindIndex(s, r[k].id)]
  }

  /** The walk keeps no repeated id, no id from `seen`, and every other id. */
  lemma {:induction false} FirstSeenIds(s: seq<Row>, seen: set<int>)
    ensures NoDupIds(FirstSeen(s, seen))
    ensures IdSet(FirstSeen(s, seen)) == IdSet(s) - seen
    decreases |s|
  {
    if |s| > 0 {
      if s[0].id in seen {
        FirstSeenIds(s[1..], seen);
      } else {
        var rest := FirstSeen(s[1..], seen + {s[0].id});
        FirstSeenIds(s[1..], seen + {s[0].id});
        var r := [s[0]] + rest;
        assert r[1..] == rest;
        forall i, j | 0 <= i < j < |r| ensures r[i].id != r[j].id {
          if i == 0 {
            IdSetIndex(rest, rest[j - 1].id);
          } else {
            assert r[i] == rest[i - 1] && r[j] == rest[j - 1];
          }
        }
      }
    }
  }

  /** The walk keeps entries in their original order. */
  lemma {:induction false} FirstSeenSubseq(s: seq<Row>, seen: set<int>)
    ensures IsSubseq(FirstSeen(s, seen), s)
    decreases |s|
  {
    if |s| > 0 {
      var seen' := if s[0].id in seen then seen else seen + {s[0].id};
      FirstSeenSubseq(s[1..], seen');
      SubseqAfterDrop(FirstSeen(s[1..], seen'), s);
    }
  }

  /** The entry the walk keeps for an id is that id's first occurrence. */
  lemma {:induction false} FirstSeenFirst(s: seq<Row>, seen: set<int>)
    ensures FirstOccurrences(FirstSeen(s, seen), s)
    decreases |s|
  {
    if |s| > 0 {
      var seen' := if s[0].id in seen then seen else seen + {s[0].id};
      var rest := FirstSeen(s[1..], seen');
      FirstSeenFirst(s[1..], seen');
      FirstSeenIds(s[1..], seen');
      var r := FirstSeen(s, seen);
      forall k | 0 <= k < |r|
        ensures r[k].id in IdSet(s) && r[k] == s[FindIndex(s, r[k].id)]
      {
        if s[0].id !in seen && k == 0 {
        } else {
          var m := if s[0].id in seen then k else k - 1;
          assert r[k] == rest[m];
          IdSetIndex(rest, rest[m].id);
          FindIndexTail(s, r[k].id);
        }
      }
    }
  }

  /** A subsequence of the tail, and the tail kept behind the same head,
      are subsequences of the whole. */
  lemma SubseqAfterDrop(a: seq<Row>, s: seq<Row>)
    requires |s| > 0 && IsSubseq(a, s[1..])
    ensures IsSubseq(a, s)
    ensures IsSubseq([s[0]] + a, s)
  {
    assert ([s[0]] + a)[1..] == a;
  }

  /** `findIndex` skips a head with another id. */
  lemma FindIndexTail(s: seq<Row>, id: int)
    requires |s| > 0 && s[0].id != id && id in IdSet(s[1..])
    ensures FindIndex(s, id) == FindIndex(s[1..], id) + 1
  {
  }

  /** A walk over entries with distinct ids, none of them seen, keeps all. */
  lemma {:induction false} FirstSeenKeepsDistinct(s: seq<Row>, seen: set<int>)
    requires NoDupIds(s) && IdSet(s) !! seen
    ensures FirstSeen(s, seen) == s
    decreases |s|
  {
    if |s| > 0 {
      IdSetIndex(s[1..], s[0].id);
      assert forall k :: 0 <= k < |s[1..]| ==> s[1..][k].id == s[k + 1].id;
      FirstSeenKeepsDistinct(s[1..], seen + {s[0].id});
      assert s == [s[0]] + s[1..];
    }
  }

  /** `unique` output never holds two entries with one id. */
  lemma UniqueNoDuplicateIds(s: seq<Row>)
    ensures NoDupIds(Unique(s))
  {
    FirstSeenIds(s, {});
  }

  /** `unique` keeps entries in order, loses no id, and the entry it keeps
      for an id is that id's first occurrence. */
  lemma UniqueKeepsFirstOccurrences(s: seq<Row>)
    ensures IsSubseq(Unique(s), s)
    ensures IdSet(Unique(s)) == IdSet(s)
    ensures FirstOccurrences(Unique(s), s)
  {
    FirstSeenIds(s, {});
    FirstSeenSubseq(s, {});
    FirstSeenFirst(s, {});
  }

  /** A sequence with distinct ids is its own deduplication. */
  lemma UniqueOfDistinct(s: seq<Row>)
    requires NoDupIds(s)
    ensures Unique(s) == s
  {
    FirstSeenKeepsDistinct(s, {});
  }

  /** `unique(unique(arr))` is `unique(arr)`. */
  lemma UniqueIdempotent(s: seq<Row>)
    ensures Unique(Unique(s)) == Unique(s)
  {
    UniqueNoDuplicateIds(s);
    UniqueOfDistinct(Unique(s));
  }
}

=== FILE: sorting.dfy ===
/** Sorting records by a string key under an abstract collation, standing
    in for `Array.prototype.sort` with a `localeCompare` comparator. */
module Sorting {
  import opened Lists

  /** `leq(a, b)`: `a.localeCompare(b) <= 0`. Collation is locale dependent,
      so only its shape is assumed: total and transitive. */
  ghost predicate TotalPreorder(leq: (string, string) -> bool) {
    && (forall a, b :: leq(a, b) || leq(b, a))
    && (forall a, b, c :: leq(a, b) && leq(b, c) ==> leq(a, c))
  }

  predicate SortedBy<T>(s: seq<T>, key: T -> string, leq: (string, string) -> bool) {
    forall i, j :: 0 <= i < j < |s| ==> leq(key(s[i]), key(s[j]))
  }

  /** Places `x` before the first entry whose key is not below its own, so
      entries with equal keys keep their relative order. */
  function Insert<T>(x: T, s: seq<T>, key: T -> string, leq: (string, string) -> bool): seq<T>
    decreases |s|
  {
    if |s| == 0 then [x]
    else if leq(key(x), key(s[0])) then [x] + s
    else [s[0]] + Insert(x, s[1..], key, leq)
  }

  lemma {:induction false} InsertPermutes<T>(x: T, s: seq<T>, key: T -> string, leq: (string, string) -> bool)
    ensures multiset(Insert(x, s, key, leq)) == multiset(s) + multiset{x}
    decreases |s|
  {
    if |s| > 0 && !leq(key(x), key(s[0])) {
      InsertPermutes(x, s[1..], key, leq);
      assert s == [s[0]] + s[1..];
    }
  }

  lemma {:induction false} InsertSorted<T>(x: T, s: seq<T>, key: T -> string, leq: (string, string) -> bool)
    requires TotalPreorder(leq)
    requires SortedBy(s, key, leq)
    ensures SortedBy(Insert(x, s, key, leq), key, leq)
    decreases |s|
  {
    if |s| > 0 {
      var r := Insert(x, s, key, leq);
      if leq(key(x), key(s[0])) {
        assert r == [x] + s;
        forall j | 0 < j < |r| ensures leq(key(r[0]), key(r[j])) {
          assert r[j] == s[j - 1];
        }
      } else {
        var rest := Insert(x, s[1..], key, leq);
        InsertSorted(x, s[1..], key, leq);
        InsertPermutes(x, s[1..], key, leq);
        assert r == [s[0]] + rest;
        forall j | 0 < j < |rest| + 1 ensures leq(key(s[0]), key(r[j])) {
          assert r[j] == rest[j - 1];
          assert r[j] in multiset(rest);
          if r[j] != x {
            assert r[j] in multiset(s[1..]);
            var m :| 0 <= m < |s[1..]| && s[1..][m] == r[j];
            assert s[m + 1] == r[j];
          }
        }
        forall i, j | 0 <= i < j < |r| ensures leq(key(r[i]), key(r[j])) {
          if i > 0 {
            assert r[i] == rest[i - 1] && r[j] == rest[j - 1];
          }
        }
      }
    }
  }

  /** A stable insertion sort by `key`. */
  function SortBy<T>(s: seq<T>, key: T -> string, leq: (string, string) -> bool): (r: seq<T>)
    requires TotalPreorder(leq)
    ensures SortedBy(r, key, leq)
    ensures multiset(r) == multiset(s)
    decreases |s|
  {
    if |s| == 0 then []
    else
      var t := SortBy(s[1..], key, leq);
      InsertSorted(s[0], t, key, leq);
      InsertPermutes(s[0], t, key, leq);
      assert s == [s[0]] + s[1..];
      Insert(s[0], t, key, leq)
  }

  /** Relabelling records whose new key is their old key commutes with
      sorting: sort-then-map and map-then-sort give the same sequence. */
  lemma {:induction false} InsertMapCommute<A, B>(
    f: A -> B, x: A, s: seq<A>, keyA: A -> string, keyB: B -> string, leq: (string, string) -> bool)
    requires forall a :: keyB(f(a)) == keyA(a)
    ensures MapSeq(f, Insert(x, s, keyA, leq)) == Insert(f(x), MapSeq(f, s), keyB, leq)
    decreases |s|
  {
    if |s| > 0 {
      assert MapSeq(f, s)[1..] == MapSeq(f, s[1..]);
      if !leq(keyA(x), keyA(s[0])) {
        InsertMapCommute(f, x, s[1..], keyA, keyB, leq);
      }
    }
  }

  lemma {:induction false} SortMapCommute<A, B>(
    f: A -> B, s: seq<A>, keyA: A -> string, keyB: B -> string, leq: (string, string) -> bool)
    requires TotalPreorder(leq)
    requires forall a :: keyB(f(a)) == keyA(a)
    ensures MapSeq(f, SortBy(s, keyA, leq)) == SortBy(MapSeq(f, s), keyB, leq)
    decreases |s|
  {
    if |s| > 0 {
      SortMapCommute(f, s[1..], keyA, keyB, leq);
      InsertMapCommute(f, s[0], SortBy(s[1..], keyA, leq), keyA, keyB, leq);
      assert MapSeq(f, s)[1..] == MapSeq(f, s[1..]);
    }
  }
}

=== FILE: table_with_filter.dfy ===
/** The filterable, paginated table of the tag modal: row toggling, bulk
    selection, pagination callbacks and which regions render. */
module TableWithFilter {
  import opened Options
  import opened Rows
  import opened Selection

  /** Pagination state; every field is optional because the host may pass
      a partial object (the modal's default is `{ count: 10 }`). */
  datatype Pagination = Pagination(count: Option<int>, page: Option<int>, perPage: Option<int>)

  /** What `{ ...pagination }` copies: the fields of a present object, none
      of an absent one. */
  function Fields(p: Option<Pagination>): Pagination {
    if p.Some? then p.value else Pagination(None, None, None)
  }

  /** `onSetPage`: `{ ...pagination, page }`. */
  function OnSetPage(p: Option<Pagination>, page: int): (r: Pagination)
    ensures r.page == Some(page)
    ensures r.count == Fields(p).count && r.perPage == Fields(p).perPage
  {
    Fields(p).(page := Some(page))
  }

  /** `onPerPageSelect`: `{ ...pagination, page: 1, perPage }`. */
  function OnPerPageSelect(p: Option<Pagination>, perPage: int): (r: Pagination)
    ensures r.page == Some(1) && r.perPage == Some(perPage)
    ensures r.count == Fields(p).count
  {
    Fields(p).(page := Some(1), perPage := Some(perPage))
  }

  /** A pager interaction as the pagination widget reports it. */
  datatype PagerEvent = SetPage(page: int) | SetPerPage(perPage: int)

  /** The host feeds every `onUpdateData` result back as the next pagination. */
  function ApplyPagerEvents(p: Option<Pagination>, events: seq<PagerEvent>): Pagination
    decreases |events|
  {
    if |events| == 0 then Fields(p)
    else
      var next := match events[0]
        case SetPage(n) => OnSetPage(p, n)
        case SetPerPage(n) => OnPerPageSelect(p, n);
      ApplyPagerEvents(Some(next), events[1..])
  }

  /** The invariant of the pagination state: a present page is at least 1
      and a present page size is positive. */
  predicate ValidPagination(p: Pagination) {
    (p.page.Some? ==> p.page.value >= 1) && (p.perPage.Some? ==> p.perPage.value > 0)
  }

  /** A widget event that respects the invariant: pages from 1, sizes above 0. */
  predicate ValidEvent(e: PagerEvent) {
    match e
    case SetPage(n) => n >= 1
    case SetPerPage(n) => n > 0
  }

  /** However the user pages, the total count never changes and the
      invariant is kept. */
  lemma {:induction false} PagingKeepsCountAndInvariant(p: Option<Pagination>, events: seq<PagerEvent>)
    requires ValidPagination(Fields(p))
    requires forall k :: 0 <= k < |events| ==> ValidEvent(events[k])
    ensures ApplyPagerEvents(p, events).count == Fields(p).count
    ensures ValidPagination(ApplyPagerEvents(p, events))
    decreases |events|
  {
    if |events| > 0 {
      assert ValidEvent(events[0]);
      var next := match events[0]
        case SetPage(n) => OnSetPage(p, n)
        case SetPerPage(n) => OnPerPageSelect(p, n);
      assert forall k :: 0 <= k < |events[1..]| ==> events[1..][k] == events[k + 1];
      PagingKeepsCountAndInvariant(Some(next), events[1..]);
    }
  }

  /** Choosing a page size always lands on page 1, whatever came before. */
  lemma PerPageResetsPage(p: Option<Pagination>, page: int, perPage: int)
    ensures OnPerPageSelect(Some(OnSetPage(p, page)), perPage) == OnPerPageSelect(p, perPage)
  {
  }

  /** The footer pagination renders only with an update callback, a
      pagination object and loaded data. */
  predicate FooterShown(hasOnUpdateData: bool, pagination: Option<Pagination>, loaded: bool): (b: bool)
    ensures b ==> pagination.Some? && ToolbarPagination(hasOnUpdateData, pagination, loaded) == Some(PagerControls(pagination.value))
  {
    hasOnUpdateData && pagination.Some? && loaded
  }

  /** Rows of the loading skeleton: `pagination?.perPage || 10`. */
  function SkeletonRowCount(pagination: Option<Pagination>): (n: int)
    ensures n != 0
    ensures n == 10 || (pagination.Some? && pagination.value.perPage == Some(n))
    ensures (pagination.None? || pagination.value.perPage in {None, Some(0)}) ==> n == 10
    ensures pagination.Some? && pagination.value.perPage.Some? && pagination.value.perPage.value != 0 ==>
      n == pagination.value.perPage.value
  {
    if pagination.Some? && pagination.value.perPage.Some? && pagination.value.perPage.value != 0
    then pagination.value.perPage.value
    else 10
  }

  /** The three mutually exclusive states of the table body. */
  datatype TableBody = Skeleton(rowCount: int) | EmptyNotice | Populated(rows: seq<Row>)

  function Body(loaded: bool, rows: seq<Row>, pagination: Option<Pagination>): (b: TableBody)
    ensures b.Skeleton? <==> !loaded
    ensures b.EmptyNotice? <==> loaded && |rows| == 0
    ensures b.Populated? ==> loaded && b.rows == rows && |rows| > 0
    ensures b.Skeleton? ==> b.rowCount == SkeletonRowCount(pagination)
  {
    if !loaded then Skeleton(SkeletonRowCount(pagination))
    else if |rows| > 0 then Populated(rows)
    else EmptyNotice
  }

  /** The footer pagination never accompanies the loading skeleton. */
  lemma FooterOnlyWithData(hasOnUpdateData: bool, pagination: Option<Pagination>, loaded: bool, rows: seq<Row>)
    requires FooterShown(hasOnUpdateData, pagination, loaded)
    ensures !Body(loaded, rows, pagination).Skeleton?
  {
  }

  /** Toggling row `rowId` of the page: the selection handed to `onSelect`,
      or `None` when `rows[rowId]` does not exist and nothing is emitted. */
  function OnRowSelect(rows: seq<Row>, selected: seq<Row>, isSelected: bool, rowId: int): (r: Option<seq<Row>>)
    ensures r.None? <==> !(0 <= rowId < |rows|)
    ensures r.Some? && isSelected ==>
      |r.value| == |selected| + 1 && r.value[..|selected|] == selected && r.value[|selected|] == rows[rowId]
    ensures r.Some? && !isSelected ==>
      && IsSubseq(r.value, selected)
      && rows[rowId].id !in IdSet(r.value)
      && forall x: Row :: x.id != rows[rowId].id ==> multiset(r.value)[x] == multiset(selected)[x]
  {
    if 0 <= rowId < |rows| then
      var row := rows[rowId];
      if isSelected then Some(selected + [row]) else Some(RemoveIds(selected, {row.id}))
    else None
  }

  /** Selecting a row and deselecting it again drops every entry with that
      id, earlier duplicates included; when the id was not selected before,
      the selection is back where it started. */
  lemma SelectThenDeselect(rows: seq<Row>, selected: seq<Row>, rowId: int)
    requires 0 <= rowId < |rows|
    ensures OnRowSelect(rows, OnRowSelect(rows, selected, true, rowId).value, false, rowId)
            == Some(RemoveIds(selected, {rows[rowId].id}))
    ensures rows[rowId].id !in IdSet(selected) ==>
            OnRowSelect(rows, OnRowSelect(rows, selected, true, rowId).value, false, rowId) == Some(selected)
  {
    var row := rows[rowId];
    RemoveAppended(selected, row);
    if row.id !in IdSet(selected) {
      RemoveIdsAbsent(selected, {row.id});
    }
  }

  /** Removing an id right after appending an entry with it. */
  lemma RemoveAppended(s: seq<Row>, x: Row)
    ensures RemoveIds(s + [x], {x.id}) == RemoveIds(s, {x.id})
  {
    RemoveIdsConcat(s, [x], {x.id});
    assert [x][1..] == [];
    assert RemoveIds([x], {x.id}) == [];
    assert RemoveIds(s, {x.id}) + [] == RemoveIds(s, {x.id});
  }

  /** The bulk checkbox: `true` merges the page into the selection without
      duplicate ids, `false` drops the page's rows from the selection. */
  function BulkSelect(rows: seq<Row>, selected: seq<Row>, isSelected: bool): (r: seq<Row>)
    ensures isSelected ==>
      && NoDupIds(r)
      && IdSet(r) == IdSet(rows) + IdSet(selected)
      && IsSubseq(r, rows + selected)
      && FirstOccurrences(r, rows + selected)
      && r == FirstSeen(rows + selected, {})
      && (forall x :: x in r ==> x in rows || x in selected)
    ensures !isSelected ==>
      && IsSubseq(r, selected)
      && IdSet(r) == IdSet(selected) - IdSet(rows)
      && (forall x :: x in r ==> x in selected)
      && (forall x: Row :: x.id !in IdSet(rows) ==> multiset(r)[x] == multiset(selected)[x])
  {
    if isSelected then
      var r := Unique(rows + selected);
      UniqueNoDuplicateIds(rows + selected);
      UniqueKeepsFirstOccurrences(rows + selected);
      IdSetConcat(rows, selected);
      SubseqElements(r, rows + selected);
      r
    else
      var r := RemoveIds(selected, IdSet(rows));
      SubseqElements(r, selected);
      r
  }

  /** After bulk select the header checkbox reads checked (for a non-empty
      page); after bulk deselect it reads unchecked. */
  lemma BulkSelectDrivesCheckbox(rows: seq<Row>, selected: seq<Row>)
    ensures |rows| > 0 ==> CalculateChecked(rows, Some(BulkSelect(rows, selected, true))) == Checked
    ensures CalculateChecked(rows, Some(BulkSelect(rows, selected, false))) == Unchecked
  {
    forall k | 0 <= k < |rows| ensures rows[k].id in IdSet(rows) {
      IdSetIndex(rows, rows[k].id);
    }
  }

  /** The toolbar, and with it the bulk-select control and its menu, renders
      only with an update callback; the bulk-select control additionally
      needs a selection callback and a pagination object. */
  predicate BulkSelectShown(hasOnUpdateData: bool, hasOnSelect: bool, pagination: Option<Pagination>) {
    hasOnUpdateData && hasOnSelect && pagination.Some?
  }

  /** The entries of the bulk-select menu. */
  datatype BulkItem = SelectNone | SelectPage

  /** The "Select page" entry has a title and an action only once data is
      loaded and the page has rows. */
  predicate SelectPageOffered(loaded: bool, rows: seq<Row>) {
    loaded && |rows| > 0
  }

  /** Clicking a menu entry: the selection handed to `onSelect`, or `None`
      when there is no menu or the entry is the empty placeholder with no
      action. */
  function ClickBulkItem(
    item: BulkItem, hasOnUpdateData: bool, hasOnSelect: bool, pagination: Option<Pagination>,
    loaded: bool, rows: seq<Row>, selected: seq<Row>): (r: Option<seq<Row>>)
    ensures r.Some? ==> BulkSelectShown(hasOnUpdateData, hasOnSelect, pagination)
    ensures item == SelectNone ==>
      (r.Some? <==> BulkSelectShown(hasOnUpdateData, hasOnSelect, pagination)) && (r.Some? ==> r.value == [])
    ensures item == SelectPage ==>
      (r.Some? <==> BulkSelectShown(hasOnUpdateData, hasOnSelect, pagination) && SelectPageOffered(loaded, rows)) &&
      (r.Some? ==> NoDupIds(r.value) && IdSet(r.value) == IdSet(rows) + IdSet(selected))
  {
    if !BulkSelectShown(hasOnUpdateData, hasOnSelect, pagination) then None
    else
      match item
      case SelectNone => Some([])
      case SelectPage =>
        if SelectPageOffered(loaded, rows) then Some(BulkSelect(rows, selected, true)) else None
  }

  /** Where the menu exists, "Select page" does exactly what ticking the
      bulk checkbox does. */
  lemma SelectPageIsBulkSelect(hasOnUpdateData: bool, hasOnSelect: bool, pagination: Option<Pagination>, rows: seq<Row>, selected: seq<Row>)
    requires BulkSelectShown(hasOnUpdateData, hasOnSelect, pagination)
    requires |rows| > 0
    ensures ClickBulkItem(SelectPage, hasOnUpdateData, hasOnSelect, pagination, true, rows, selected)
            == Some(BulkSelect(rows, selected, true))
  {
  }

  /** What the toolbar shows in its pagination slot. */
  datatype ToolbarPager = PagerSkeleton | PagerControls(state: Pagination)

  /** The toolbar's pagination slot: no toolbar without an update callback;
      a skeleton until data is loaded; then the pager over the copied
      pagination fields (`{ ...(pagination || {}) }`). */
  function ToolbarPagination(hasOnUpdateData: bool, pagination: Option<Pagination>, loaded: bool): (t: Option<ToolbarPager>)
    ensures t.None? <==> !hasOnUpdateData
    ensures t == Some(PagerSkeleton) <==> hasOnUpdateData && !loaded
    ensures t.Some? && t.value.PagerControls? ==>
      loaded && t.value.state.count == Fields(pagination).count &&
      t.value.state.page == Fields(pagination).page && t.value.state.perPage == Fields(pagination).perPage
  {
    if !hasOnUpdateData then None
    else if !loaded then Some(PagerSkeleton)
    else Some(PagerControls(Fields(pagination)))
  }

  /** The toolbar shows a pager skeleton exactly while the table body is
      the loading skeleton, and its page controls only next to loaded data. */
  lemma ToolbarPagerMatchesBody(hasOnUpdateData: bool, pagination: Option<Pagination>, loaded: bool, rows: seq<Row>)
    requires hasOnUpdateData
    ensures ToolbarPagination(hasOnUpdateData, pagination, loaded) == Some(PagerSkeleton) <==>
            Body(loaded, rows, pagination).Skeleton?
    ensures ToolbarPagination(hasOnUpdateData, pagination, loaded).value.PagerControls? ==>
            !Body(loaded, rows, pagination).Skeleton?
  {
  }

  /** The bulk checkbox state: `loaded && calculateChecked(rows, selected)`.
      Before the data is loaded it is unchecked; afterwards it follows the
      page's selection. */
  function HeaderChecked(loaded: bool, rows: seq<Row>, selected: Option<seq<Row>>): (c: Tri)
    ensures !loaded ==> c == Unchecked
    ensures loaded ==> c == CalculateChecked(rows, selected)
    ensures c == Checked <==>
      loaded && |rows| > 0 && forall k :: 0 <= k < |rows| ==> IsSelected(rows[k].id, selected)
    ensures c == Indeterminate <==>
      && loaded
      && (exists k :: 0 <= k < |rows| && IsSelected(rows[k].id, selected))
      && (exists k :: 0 <= k < |rows| && !IsSelected(rows[k].id, selected))
  {
    if loaded then CalculateChecked(rows, selected) else Unchecked
  }
}

=== FILE: tag_modal.dfy ===
/** The tag modal: single or tabbed tables, the Apply/Cancel actions and
    the title. */
module TagModal {
  import opened Options
  import opened Rows
  import opened TableWithFilter

  /** A prop of the modal: one value for a single table, or one value per
      tab, indexed by tab position, in tabbed mode. */
  datatype PerTab<T> = Single(value: T) | Tabbed(tabs: seq<T>)

  /** A selection that is absent or empty (`!values || values.length === 0`). */
  predicate Blank(s: Option<seq<Row>>) {
    s.None? || |s.value| == 0
  }

  /** `Object.values(selected).every(blank)`, scanned left to right. */
  function AllBlank(tabs: seq<Option<seq<Row>>>): (b: bool)
    ensures b <==> forall k :: 0 <= k < |tabs| ==> Blank(tabs[k])
  {
    if |tabs| == 0 then true
    else if !Blank(tabs[0]) then false
    else
      var b := AllBlank(tabs[1..]);
      assert forall k :: 1 <= k < |tabs| ==> tabs[k] == tabs[1..][k - 1];
      b
  }

  /** Apply is disabled unless some table has a non-empty selection. In
      tabbed mode an absent selection list is `Tabbed([])`
      (`Object.values(selected || {})`). */
  function ApplyDisabled(selected: PerTab<Option<seq<Row>>>): (d: bool)
    ensures selected.Single? ==> (d <==> selected.value.None? || |selected.value.value| == 0)
    ensures selected.Tabbed? ==>
      (!d <==> exists k :: 0 <= k < |selected.tabs| && selected.tabs[k].Some? && |selected.tabs[k].value| > 0)
  {
    match selected
    case Single(s) => Blank(s)
    case Tabbed(tabs) => AllBlank(tabs)
  }

  /** The modal title: `title || "Tags for " + systemName`. It is never empty. */
  function Title(title: Option<string>, systemName: string): (t: string)
    ensures t != ""
    ensures Filled(title) ==> t == title.value
    ensures !Filled(title) ==> |t| == 9 + |systemName| && t[..9] == "Tags for " && t[9..] == systemName
  {
    if Filled(title) then title.value else "Tags for " + systemName
  }

  /** A user gesture on the modal. */
  datatype Gesture = Confirm | Cancel | Close

  /** A callback the modal invokes: `onApply()` or `toggleModal(e, committed)`. */
  datatype Effect = Applied | Toggled(committed: bool)

  /** The callbacks a gesture triggers, in order; `None` when nothing
      happens: Apply and Cancel exist only with `onApply`, and a disabled
      Apply button ignores clicks. */
  function Respond(g: Gesture, hasOnApply: bool, applyDisabled: bool): (r: Option<seq<Effect>>)
    ensures r.Some? <==>
      g == Close || (g == Cancel && hasOnApply) || (g == Confirm && hasOnApply && !applyDisabled)
    ensures r.Some? ==> |r.value| > 0 && r.value[|r.value| - 1] == Toggled(g == Confirm)
    ensures r.Some? ==> multiset(r.value)[Applied] == (if g == Confirm then 1 else 0)
    ensures r.Some? ==> forall i :: 0 <= i < |r.value| && r.value[i] == Applied ==>
              exists j :: i < j < |r.value| && r.value[j] == Toggled(true)
    ensures r.Some? ==> multiset(r.value)[Toggled(g == Confirm)] == 1 && Toggled(g != Confirm) !in r.value
  {
    match g
    case Confirm => if hasOnApply && !applyDisabled then Some([Applied, Toggled(true)]) else None
    case Cancel => if hasOnApply then Some([Toggled(false)]) else None
    case Close => Some([Toggled(false)])
  }

  /** Some entry of the `selected` prop is present and non-empty; in tabbed
      mode this may be an entry past the last tab, which no table shows. */
  predicate SomeSelection(selected: PerTab<Option<seq<Row>>>) {
    match selected
    case Single(s) => !Blank(s)
    case Tabbed(tabs) => exists k :: 0 <= k < |tabs| && !Blank(tabs[k])
  }

  /** Clicking Apply calls `onApply` exactly when the modal has `onApply`
      and some entry of the `selected` prop is present and non-empty; Cancel
      and close never call it. */
  lemma ApplyFiresOnlyWithSelection(g: Gesture, hasOnApply: bool, selected: PerTab<Option<seq<Row>>>)
    ensures var r := Respond(g, hasOnApply, ApplyDisabled(selected));
      (r.Some? && Applied in r.value) <==> g == Confirm && hasOnApply && SomeSelection(selected)
  {
  }

  /** What one table instance receives. */
  datatype TableInputs = TableInputs(
    title: string,
    rows: Option<seq<Row>>,
    pagination: Option<Pagination>,
    loaded: Option<bool>,
    selected: Option<seq<Row>>)

  /** Tabbed mode: tab `k` is titled after `tabNames[k]` and gets the `k`-th
      rows, pagination, loaded flag and selection (`rows?.[key]` and so on),
      or nothing past the end of an input. */
  function TabTables(
    tabNames: seq<string>,
    rows: seq<seq<Row>>,
    pagination: seq<Pagination>,
    loaded: seq<bool>,
    selected: seq<Option<seq<Row>>>): (r: seq<TableInputs>)
    ensures |r| == |tabNames|
    ensures forall k :: 0 <= k < |r| ==>
      && r[k].title == "All " + tabNames[k]
      && r[k].rows == At(rows, k)
      && r[k].pagination == At(pagination, k)
      && r[k].loaded == At(loaded, k)
      && r[k].selected == (if k < |selected| then selected[k] else None)
  {
    seq(|tabNames|, k requires 0 <= k < |tabNames| =>
      TableInputs("All " + tabNames[k], At(rows, k), At(pagination, k), At(loaded, k),
                  if k < |selected| then selected[k] else None))
  }

  /** With no more selections than tabs, Apply is enabled exactly when some
      tab's table was handed a non-empty selection. */
  lemma ApplyEnabledIffSomeTabSelected(
    tabNames: seq<string>, rows: seq<seq<Row>>, pagination: seq<Pagination>,
    loaded: seq<bool>, selected: seq<Option<seq<Row>>>)
    requires |selected| <= |tabNames|
    ensures !ApplyDisabled(Tabbed(selected)) <==>
      exists k :: 0 <= k < |tabNames| && !Blank(TabTables(tabNames, rows, pagination, loaded, selected)[k].selected)
  {
    var t := TabTables(tabNames, rows, pagination, loaded, selected);
    assert forall k :: 0 <= k < |selected| ==> t[k].selected == selected[k];
  }

  /** With more selections than tabs, a non-empty selection past the last
      tab enables Apply although every tab's table shows an empty one. */
  lemma SelectionPastLastTabEnablesApply(
    tabNames: seq<string>, rows: seq<seq<Row>>, pagination: seq<Pagination>,
    loaded: seq<bool>, selected: seq<Option<seq<Row>>>)
    requires |tabNames| < |selected|
    requires forall k :: 0 <= k < |tabNames| ==> Blank(selected[k])
    requires !Blank(selected[|tabNames|])
    ensures !ApplyDisabled(Tabbed(selected))
    ensures forall k :: 0 <= k < |tabNames| ==>
      Blank(TabTables(tabNames, rows, pagination, loaded, selected)[k].selected)
  {
  }
}

=== FILE: text.dfy ===
/** The few JavaScript string operations the wizard relies on. */
module Text {

  /** `pat` occurs in `s` starting at index `j`. */
  predicate OccursAt(s: string, pat: string, j: int) {
    0 <= j && j + |pat| <= |s| && s[j..j + |pat|] == pat
  }

  /** First occurrence of `pat` at or after `i`, or -1. */
  function IndexFrom(s: string, pat: string, i: nat): (k: int)
    requires i <= |s|
    ensures k == -1 || (i <= k && OccursAt(s, pat, k))
    ensures k == -1 <==> forall j :: i <= j <= |s| ==> !OccursAt(s, pat, j)
    ensures k >= 0 ==> forall j :: i <= j < k ==> !OccursAt(s, pat, j)
    decreases |s| - i
  {
    if OccursAt(s, pat, i) then i
    else if i == |s| then -1
    else IndexFrom(s, pat, i + 1)
  }

  /** `s.indexOf(pat)`: the first occurrence of `pat`, or -1. */
  function IndexOf(s: string, pat: string): int {
    IndexFrom(s, pat, 0)
  }

  /** `s.replace(pat, '')`: drops the first occurrence of `pat`, if any. */
  function RemoveFirst(s: string, pat: string): (r: string)
    ensures (forall j :: 0 <= j <= |s| ==> !OccursAt(s, pat, j)) ==> r == s
    ensures IndexOf(s, pat) >= 0 ==>
      && |r| == |s| - |pat|
      && r[..IndexOf(s, pat)] + pat + r[IndexOf(s, pat)..] == s
  {
    var k := IndexOf(s, pat);
    if k < 0 then s
    else
      var r := s[..k] + s[k + |pat|..];
      assert r[..k] == s[..k] && r[k..] == s[k + |pat|..];
      assert s == s[..k] + s[k..k + |pat|] + s[k + |pat|..];
      r
  }

  /** A prefix is removed from the front. */
  lemma RemoveLeadingPrefix(pat: string, rest: string)
    ensures RemoveFirst(pat + rest, pat) == rest
  {
    var s := pat + rest;
    assert OccursAt(s, pat, 0);
    assert s[..0] + s[|pat|..] == rest;
  }

  /** `s.lastIndexOf(c)`: the last index holding `c`, or -1. */
  function LastIndexOf(s: string, c: char): (k: int)
    ensures -1 <= k < |s|
    ensures k == -1 <==> c !in s
    ensures k >= 0 ==> s[k] == c && c !in s[k + 1..]
    decreases |s|
  {
    if |s| == 0 then -1
    else if s[|s| - 1] == c then |s| - 1
    else
      var k := LastIndexOf(s[..|s| - 1], c);
      assert s == s[..|s| - 1] + [s[|s| - 1]];
      if k >= 0 then assert s[k + 1..] == s[..|s| - 1][k + 1..] + [s[|s| - 1]]; k
      else k
  }
}

=== FILE: wizard_options.dfy ===
/** The option lists of the wizard's type step and the mutators that
    enable, disable or drop options as the user picks values. */
module WizardOptions {
  import opened Options
  import opened Lists
  import opened Sorting
  import opened Text

  /** A catalog entry for a kind of external system. */
  datatype SourceType = SourceType(name: string, product_name: string, vendor: string, icon_url: Option<string>)

  /** A catalog entry for an application and the source types it supports. */
  datatype AppType = AppType(id: string, display_name: string, supported_source_types: seq<string>)

  /** An entry of a select field; `caption` is its `label`. `isDisabled`
      is absent until a mutator sets it. */
  datatype SelectOption = SelectOption(value: Option<string>, caption: string, key: Option<string>, isDisabled: Option<bool>)

  /** `supported_source_types.includes(sourceType)`. */
  predicate Supports(app: AppType, sourceType: string) {
    sourceType in app.supported_source_types
  }

  function AppLabelled(caption: string): AppType -> bool {
    (a: AppType) => a.display_name == caption
  }

  function AppWithId(id: Option<string>): AppType -> bool {
    (a: AppType) => id == Some(a.id)
  }

  function SupportsType(sourceType: string): AppType -> bool {
    (a: AppType) => Supports(a, sourceType)
  }

  function TypeNamed(name: string): SourceType -> bool {
    (t: SourceType) => t.name == name
  }

  function TypeWithProduct(caption: string): SourceType -> bool {
    (t: SourceType) => t.product_name == caption
  }

  /** The catalog lookup the mutators cannot do without: some application
      carries this display name. */
  predicate AppLabelKnown(apps: seq<AppType>, caption: string) {
    exists k :: 0 <= k < |apps| && apps[k].display_name == caption
  }

  /** The application found for `option.caption` does not support the
      selected source type (a source type is selected). */
  predicate Unsupported(apps: seq<AppType>, caption: string, selectedSourceType: Option<string>) {
    Filled(selectedSourceType) &&
    exists k :: 0 <= k < |apps| && IsFirst(apps, AppLabelled(caption), k) && !Supports(apps[k], selectedSourceType.value)
  }

  /** `appMutator` (open vendor mode): an option without a value (the "None"
      entry) passes untouched; any other is marked disabled exactly when the
      selected source type is one its application does not support. */
  function AppMutator(apps: seq<AppType>, option: SelectOption, selectedSourceType: Option<string>): (r: SelectOption)
    requires Filled(option.value) && Filled(selectedSourceType) ==> AppLabelKnown(apps, option.caption)
    ensures !Filled(option.value) ==> r == option
    ensures Filled(option.value) ==> r == option.(isDisabled := Some(Unsupported(apps, option.caption, selectedSourceType)))
  {
    if !Filled(option.value) then option
    else if !Filled(selectedSourceType) then option.(isDisabled := Some(false))
    else
      var app := Find(apps, AppLabelled(option.caption));
      option.(isDisabled := Some(!Supports(app.value, selectedSourceType.value)))
  }

  /** `appMutatorRedHat` (Red Hat vendor mode): the option is dropped
      (`undefined`) under the same condition, otherwise returned as is. */
  function AppMutatorRedHat(apps: seq<AppType>, option: SelectOption, selectedSourceType: Option<string>): (r: Option<SelectOption>)
    requires Filled(selectedSourceType) ==> AppLabelKnown(apps, option.caption)
    ensures r.None? <==> Unsupported(apps, option.caption, selectedSourceType)
    ensures r.Some? ==> r.value == option
  {
    if !Filled(selectedSourceType) then Some(option)
    else
      var app := Find(apps, AppLabelled(option.caption));
      if Supports(app.value, selectedSourceType.value) then Some(option) else None
  }

  /** For options with a value, Red Hat mode drops exactly the options that
      open mode disables. */
  lemma RedHatDropsWhatOpenDisables(apps: seq<AppType>, option: SelectOption, selectedSourceType: Option<string>)
    requires Filled(option.value)
    requires Filled(selectedSourceType) ==> AppLabelKnown(apps, option.caption)
    ensures AppMutatorRedHat(apps, option, selectedSourceType).None? <==>
            AppMutator(apps, option, selectedSourceType).isDisabled == Some(true)
  {
  }

  /** The `application` form value. */
  datatype AppSelection = AppSelection(application_type_id: Option<string>)

  /** The application id currently chosen, if any. */
  function SelectedAppId(application: Option<AppSelection>): Option<string> {
    if application.Some? then application.value.application_type_id else None
  }

  /** The selected application names a catalog entry, whose supported list
      is then consulted for the option's source type. */
  predicate AppChosen(apps: seq<AppType>, application: Option<AppSelection>) {
    exists k :: 0 <= k < |apps| && SelectedAppId(application) == Some(apps[k].id)
  }

  /** `sourceTypeMutator`: a source-type option is disabled exactly when an
      application is chosen whose supported list lacks the type carrying
      this option's label; nothing else about the option changes. */
  function SourceTypeMutator(
    apps: seq<AppType>, types: seq<SourceType>, option: SelectOption, application: Option<AppSelection>): (r: SelectOption)
    requires AppChosen(apps, application) ==> exists m :: 0 <= m < |types| && types[m].product_name == option.caption
    ensures r.value == option.value && r.caption == option.caption && r.key == option.key
    ensures r.isDisabled.Some?
    ensures r.isDisabled == Some(true) <==>
      exists k, m :: IsFirst(apps, AppWithId(SelectedAppId(application)), k) &&
                     IsFirst(types, TypeWithProduct(option.caption), m) &&
                     !Supports(apps[k], types[m].name)
  {
    var app := Find(apps, AppWithId(SelectedAppId(application)));
    if app.None? then option.(isDisabled := Some(false))
    else
      assert AppWithId(SelectedAppId(application))(app.value);
      var t := Find(types, TypeWithProduct(option.caption));
      option.(isDisabled := Some(!Supports(app.value, t.value.name)))
  }

  /** A Red Hat type's option carries the shortened label, which no catalog
      entry has as its product name: for the catalog `[t]`, the label lookup
      of `sourceTypeMutator` succeeds exactly when no application is chosen,
      so once one is, the source reads `.name` of `undefined`. */
  lemma RedHatOptionLabelUnknown(name: string, product: string, icon: Option<string>)
    ensures var t := SourceType(name, "Red Hat " + product, "Red Hat", icon);
      SourceOption(t).caption == product && t.product_name != SourceOption(t).caption
    ensures var t := SourceType(name, "Red Hat " + product, "Red Hat", icon);
      forall apps: seq<AppType>, application: Option<AppSelection> ::
        (AppChosen(apps, application) ==>
           exists m :: 0 <= m < |[t]| && [t][m].product_name == SourceOption(t).caption)
        <==> !AppChosen(apps, application)
  {
    var t := SourceType(name, "Red Hat " + product, "Red Hat", icon);
    RedHatPrefixDropped(name, product, icon);
    assert |"Red Hat " + product| != |product|;
    assert !exists m :: 0 <= m < |[t]| && [t][m].product_name == SourceOption(t).caption by {
      forall m | 0 <= m < |[t]| ensures [t][m].product_name != SourceOption(t).caption {
        assert [t][m] == t;
      }
    }
  }

  /** `sourceTypeMutator` as evidently intended: the option's own value is
      the source type's name, so no lookup by label is needed. Disabled
      exactly when an application is chosen whose supported list lacks it. */
  function SourceTypeMutatorByName(apps: seq<AppType>, option: SelectOption, application: Option<AppSelection>): (r: SelectOption)
    ensures r.value == option.value && r.caption == option.caption && r.key == option.key
    ensures r.isDisabled.Some?
    ensures r.isDisabled == Some(true) <==>
      exists k :: IsFirst(apps, AppWithId(SelectedAppId(application)), k) &&
                  (option.value.None? || !Supports(apps[k], option.value.value))
  {
    var app := Find(apps, AppWithId(SelectedAppId(application)));
    if app.None? then option.(isDisabled := Some(false))
    else
      assert AppWithId(SelectedAppId(application))(app.value);
      option.(isDisabled := Some(option.value.None? || !Supports(app.value, option.value.value)))
  }

  /** Wherever the label lookup finds the option's own type, the corrected
      mutator agrees with the source's. */
  lemma ByNameAgreesWhenLabelFound(
    apps: seq<AppType>, types: seq<SourceType>, option: SelectOption, application: Option<AppSelection>, m: int)
    requires IsFirst(types, TypeWithProduct(option.caption), m)
    requires option.value == Some(types[m].name)
    ensures SourceTypeMutator(apps, types, option, application) == SourceTypeMutatorByName(apps, option, application)
  {
  }

  /** The corrected mutator handles every compiled source option, Red Hat
      ones included, deciding on the option's own type. */
  lemma ByNameDecidesOnOwnType(apps: seq<AppType>, t: SourceType, application: Option<AppSelection>)
    ensures SourceTypeMutatorByName(apps, SourceOption(t), application).caption == DisplayLabel(t)
    ensures SourceTypeMutatorByName(apps, SourceOption(t), application).isDisabled == Some(true) <==>
      exists k :: IsFirst(apps, AppWithId(SelectedAppId(application)), k) && !Supports(apps[k], t.name)
  {
  }

  /** The compact icons that replace the catalog icon for these types. */
  const ShortIcons: map<string, string> := map[
    "amazon" := "/apps/frontend-assets/partners-icons/aws.svg",
    "ansible-tower" := "/apps/frontend-assets/red-hat-logos/stacked.svg",
    "azure" := "/apps/frontend-assets/partners-icons/microsoft-azure-short.svg",
    "openshift" := "/apps/frontend-assets/red-hat-logos/stacked.svg",
    "satellite" := "/apps/frontend-assets/red-hat-logos/stacked.svg",
    "google" := "/apps/frontend-assets/partners-icons/google-cloud-short.svg"
  ]

  /** No icon, or an image with a source (possibly absent) and alt text. */
  datatype IconChoice = NoIcon | Icon(src: Option<string>, alt: string)

  /** `iconMapper(sourceTypes)(name)`: no icon for an unknown type or for a
      type with its own icon but no compact one; otherwise the compact icon
      when there is one, else the type's own `icon_url`. */
  function IconMapper(types: seq<SourceType>, name: string): (r: IconChoice)
    ensures r.NoIcon? <==>
      (forall k :: 0 <= k < |types| ==> types[k].name != name) ||
      (exists k :: IsFirst(types, TypeNamed(name), k) && Filled(types[k].icon_url) && name !in ShortIcons)
    ensures r.Icon? ==> exists k ::
      && IsFirst(types, TypeNamed(name), k)
      && r.alt == types[k].product_name
      && r.src == (if name in ShortIcons then Some(ShortIcons[name]) else types[k].icon_url)
  {
    var t := Find(types, TypeNamed(name));
    if t.None? || (Filled(t.value.icon_url) && name !in ShortIcons) then NoIcon
    else Icon(if name in ShortIcons then Some(ShortIcons[name]) else t.value.icon_url, t.value.product_name)
  }

  /** An icon without a usable source is handed out exactly for a known
      type with neither a compact icon nor an `icon_url` of its own. */
  lemma IconWithoutSource(types: seq<SourceType>, name: string)
    ensures (IconMapper(types, name).Icon? && !Filled(IconMapper(types, name).src)) <==>
      exists k :: IsFirst(types, TypeNamed(name), k) && !Filled(types[k].icon_url) && name !in ShortIcons
  {
  }

  /** A source type's label: for vendor "Red Hat" the first "Red Hat " is
      removed from the product name. */
  function DisplayLabel(t: SourceType): string {
    if t.vendor == "Red Hat" then RemoveFirst(t.product_name, "Red Hat ") else t.product_name
  }

  lemma RedHatPrefixDropped(name: string, product: string, icon: Option<string>)
    ensures DisplayLabel(SourceType(name, "Red Hat " + product, "Red Hat", icon)) == product
  {
    RemoveLeadingPrefix("Red Hat ", product);
  }

  function Relabel(t: SourceType): SourceType {
    t.(product_name := DisplayLabel(t))
  }

  function ProductName(t: SourceType): string { t.product_name }

  function DisplayName(a: AppType): string { a.display_name }

  function LabelOf(o: SelectOption): string { o.caption }

  function TypeOption(t: SourceType): SelectOption {
    SelectOption(Some(t.name), t.product_name, None, None)
  }

  /** The option a source type contributes to the list. */
  function SourceOption(t: SourceType): SelectOption {
    TypeOption(Relabel(t))
  }

  /** The option an application contributes to the list. */
  function AppOption(a: AppType): SelectOption {
    SelectOption(Some(a.id), a.display_name, None, None)
  }

  /** `compileAllSourcesComboOptions`: relabel, sort by label, map to
      options. One option per type, sorted by label. */
  function CompileSourceOptions(types: seq<SourceType>, leq: (string, string) -> bool): (r: seq<SelectOption>)
    requires TotalPreorder(leq)
    ensures |r| == |types|
    ensures SortedBy(r, LabelOf, leq)
    ensures multiset(r) == multiset(MapSeq(SourceOption, types))
  {
    var relabelled := MapSeq(Relabel, types);
    var r := MapSeq(TypeOption, SortBy(relabelled, ProductName, leq));
    assert forall t :: LabelOf(TypeOption(t)) == ProductName(t);
    SortMapCommute(TypeOption, relabelled, ProductName, LabelOf, leq);
    var sorted := SortBy(MapSeq(TypeOption, relabelled), LabelOf, leq);
    assert r == sorted;
    MapCompose(TypeOption, Relabel, SourceOption, types);
    assert multiset(sorted) == multiset(MapSeq(SourceOption, types));
    r
  }

  /** The leading "None" entry of the open-vendor application list. */
  function NoneOption(noneLabel: string): SelectOption {
    SelectOption(None, noneLabel, Some("none"), None)
  }

  /** `compileAllApplicationComboOptions`: a leading "None" entry unless the
      active vendor is Red Hat, then one option per application sorted by
      display name. */
  function CompileAppOptions(apps: seq<AppType>, redHatVendor: bool, noneLabel: string, leq: (string, string) -> bool): (r: seq<SelectOption>)
    requires TotalPreorder(leq)
    ensures |r| == |apps| + (if redHatVendor then 0 else 1)
    ensures !redHatVendor ==> r[0] == NoneOption(noneLabel)
    ensures forall k :: 0 <= k < |r| ==> (r[k].value.None? <==> !redHatVendor && k == 0)
    ensures var body := if redHatVendor then r else r[1..];
      SortedBy(body, LabelOf, leq) && multiset(body) == multiset(MapSeq(AppOption, apps))
  {
    var body := MapSeq(AppOption, SortBy(apps, DisplayName, leq));
    SortedAppOptions(apps, leq);
    var r := (if redHatVendor then [] else [NoneOption(noneLabel)]) + body;
    assert !redHatVendor ==> r[1..] == body;
    r
  }

  /** The applications sorted by display name and mapped to options are
      the options sorted by label; every one carries a value. */
  lemma SortedAppOptions(apps: seq<AppType>, leq: (string, string) -> bool)
    requires TotalPreorder(leq)
    ensures var body := MapSeq(AppOption, SortBy(apps, DisplayName, leq));
      && |body| == |apps|
      && SortedBy(body, LabelOf, leq)
      && multiset(body) == multiset(MapSeq(AppOption, apps))
      && (forall k :: 0 <= k < |body| ==> body[k].value.Some?)
  {
    var body := MapSeq(AppOption, SortBy(apps, DisplayName, leq));
    assert forall a :: LabelOf(AppOption(a)) == DisplayName(a);
    SortMapCommute(AppOption, apps, DisplayName, LabelOf, leq);
    assert body == SortBy(MapSeq(AppOption, apps), LabelOf, leq);
  }

  /** The application step for a preselected source type offers exactly
      the applications that support it, sorted by display name, behind the
      "None" entry unless the active vendor is Red Hat. */
  function ApplicationStepOptions(
    apps: seq<AppType>, selectedType: string, redHatVendor: bool, noneLabel: string, leq: (string, string) -> bool): (r: seq<SelectOption>)
    requires TotalPreorder(leq)
    ensures |r| == |FilterSeq(SupportsType(selectedType), apps)| + (if redHatVendor then 0 else 1)
    ensures !redHatVendor ==> r[0] == NoneOption(noneLabel)
    ensures forall k :: 0 <= k < |r| ==> (r[k].value.None? <==> !redHatVendor && k == 0)
    ensures var body := if redHatVendor then r else r[1..];
      SortedBy(body, LabelOf, leq) &&
      multiset(body) == multiset(MapSeq(AppOption, FilterSeq(SupportsType(selectedType), apps)))
    ensures forall k :: 0 <= k < |r| && r[k].value.Some? ==>
      exists a :: a in apps && Supports(a, selectedType) && r[k] == AppOption(a)
    ensures forall a :: a in apps && Supports(a, selectedType) ==> AppOption(a) in r
  {
    var r := CompileAppOptions(FilterSeq(SupportsType(selectedType), apps), redHatVendor, noneLabel, leq);
    ApplicationStepMembers(apps, selectedType, redHatVendor, noneLabel, leq);
    r
  }

  /** The options offered for a preselected source type are those of the
      applications supporting it. */
  lemma ApplicationStepMembers(
    apps: seq<AppType>, selectedType: string, redHatVendor: bool, noneLabel: string, leq: (string, string) -> bool)
    requires TotalPreorder(leq)
    ensures var r := CompileAppOptions(FilterSeq(SupportsType(selectedType), apps), redHatVendor, noneLabel, leq);
      && (forall k :: 0 <= k < |r| && r[k].value.Some? ==>
            exists a :: a in apps && Supports(a, selectedType) && r[k] == AppOption(a))
      && (forall a :: a in apps && Supports(a, selectedType) ==> AppOption(a) in r)
  {
    var offered := FilterSeq(SupportsType(selectedType), apps);
    var r := CompileAppOptions(offered, redHatVendor, noneLabel, leq);
    CompiledAppOptionsMembers(offered, redHatVendor, noneLabel, leq);
    forall k | 0 <= k < |r| && r[k].value.Some?
      ensures exists a :: a in apps && Supports(a, selectedType) && r[k] == AppOption(a)
    {
      var a :| a in offered && r[k] == AppOption(a);
      assert SupportsType(selectedType)(a);
    }
    forall a | a in apps && Supports(a, selectedType)
      ensures AppOption(a) in r
    {
      assert SupportsType(selectedType)(a);
    }
  }

  /** The compiled application list holds an option for every application
      and, besides the "None" entry, nothing else. */
  lemma CompiledAppOptionsMembers(apps: seq<AppType>, redHatVendor: bool, noneLabel: string, leq: (string, string) -> bool)
    requires TotalPreorder(leq)
    ensures var r := CompileAppOptions(apps, redHatVendor, noneLabel, leq);
      && (forall k :: 0 <= k < |r| && r[k].value.Some? ==> exists a :: a in apps && r[k] == AppOption(a))
      && (forall a :: a in apps ==> AppOption(a) in r)
  {
    var r := CompileAppOptions(apps, redHatVendor, noneLabel, leq);
    var skip := if redHatVendor then 0 else 1;
    assert |r| >= skip;
    assert multiset(r[skip..]) == multiset(MapSeq(AppOption, apps)) by {
      assert r[skip..] == if redHatVendor then r else r[1..];
    }
    PermutedOptionsMembers(apps, r, skip);
  }

  /** When `r` past its first `skip` entries permutes the applications'
      options, those entries are options of applications and every
      application has one. */
  lemma PermutedOptionsMembers(apps: seq<AppType>, r: seq<SelectOption>, skip: nat)
    requires skip <= |r| && multiset(r[skip..]) == multiset(MapSeq(AppOption, apps))
    ensures forall k :: skip <= k < |r| ==> exists a :: a in apps && r[k] == AppOption(a)
    ensures forall a :: a in apps ==> AppOption(a) in r
  {
    var body := r[skip..];
    var options := MapSeq(AppOption, apps);
    forall k | skip <= k < |r|
      ensures exists a :: a in apps && r[k] == AppOption(a)
    {
      assert r[k] == body[k - skip];
      assert r[k] in multiset(options);
      var j :| 0 <= j < |apps| && options[j] == r[k];
      assert apps[j] in apps;
    }
    forall a | a in apps
      ensures AppOption(a) in r
    {
      var j :| 0 <= j < |apps| && apps[j] == a;
      assert options[j] == AppOption(a);
      assert AppOption(a) in multiset(body);
      var m :| 0 <= m < |body| && body[m] == AppOption(a);
      assert r[m + skip] == AppOption(a);
    }
  }
}

=== FILE: wizard_steps.dfy ===
/** Step navigation of the add-source wizard: the key of the step after the
    type step, and the order in which the wizard's steps are assembled. */
module WizardSteps {
  import opened Options
  import opened Text
  import opened WizardOptions

  /** `nextStep`: `"<source_type>-<application_type_id>"` when an
      application id is chosen, otherwise just the source type. */
  function NextStep(application: Option<AppSelection>, sourceType: string): (key: string)
    ensures Filled(SelectedAppId(application)) ==>
      key == sourceType + "-" + SelectedAppId(application).value
    ensures !Filled(SelectedAppId(application)) ==> key == sourceType
  {
    var appId := SelectedAppId(application);
    if Filled(appId) then sourceType + "-" + appId.value else sourceType
  }

  /** Reads a step key back: the part after the last `-` is the
      application id. */
  function SplitStepKey(key: string): (string, Option<string>) {
    var k := LastIndexOf(key, '-');
    if k < 0 then (key, None) else (key[..k], Some(key[k + 1..]))
  }

  /** Application ids carry no `-`, so the key of a step with an
      application reads back as the source type and that id; a source type
      without `-` reads back as itself. */
  lemma NextStepReadsBack(application: Option<AppSelection>, sourceType: string)
    requires SelectedAppId(application).Some? ==> '-' !in SelectedAppId(application).value
    requires !Filled(SelectedAppId(application)) ==> '-' !in sourceType
    ensures SplitStepKey(NextStep(application, sourceType)) ==
      (sourceType, if Filled(SelectedAppId(application)) then SelectedAppId(application) else None)
  {
    var appId := SelectedAppId(application);
    if Filled(appId) {
      var key := NextStep(application, sourceType);
      var n := |sourceType|;
      assert key[n] == '-';
      assert key[n + 1..] == appId.value;
      assert LastIndexOf(key, '-') == n;
      assert key[..n] == sourceType;
    }
  }

  /** Step keys of different choices differ, given id-free application ids. */
  lemma NextStepInjective(a1: Option<AppSelection>, s1: string, a2: Option<AppSelection>, s2: string)
    requires SelectedAppId(a1).Some? ==> '-' !in SelectedAppId(a1).value
    requires SelectedAppId(a2).Some? ==> '-' !in SelectedAppId(a2).value
    requires !Filled(SelectedAppId(a1)) ==> '-' !in s1
    requires !Filled(SelectedAppId(a2)) ==> '-' !in s2
    requires NextStep(a1, s1) == NextStep(a2, s2)
    ensures s1 == s2
    ensures Filled(SelectedAppId(a1)) <==> Filled(SelectedAppId(a2))
    ensures Filled(SelectedAppId(a1)) ==> SelectedAppId(a1) == SelectedAppId(a2)
  {
    NextStepReadsBack(a1, s1);
    NextStepReadsBack(a2, s2);
  }

  /** How a step picks its successor. */
  datatype Transition = GoTo(target: string) | ByFormValues | Final

  /** Which builder produced a step. */
  datatype StepKind = NameStep | ApplicationStep | TypesStep | Fragment | SummaryStep

  datatype Step = Step(name: string, kind: StepKind, next: Transition)

  /** The name step, the type step (the application step when a source
      type is preselected), the per-type fragments in the order they are
      given, and the summary. */
  function AssembleSteps(selectedType: Option<string>, fragments: seq<Step>): (r: seq<Step>)
    ensures |r| == |fragments| + 3
    ensures r[0] == Step("name_step", NameStep, GoTo(r[1].name))
    ensures r[1].name == "types_step" && r[1].next == ByFormValues
    ensures r[1].kind == (if Filled(selectedType) then ApplicationStep else TypesStep)
    ensures r[2..|r| - 1] == fragments
    ensures r[|r| - 1] == Step("summary", SummaryStep, Final)
  {
    var second := if Filled(selectedType) then ApplicationStep else TypesStep;
    [Step("name_step", NameStep, GoTo("types_step")), Step("types_step", second, ByFormValues)]
      + fragments + [Step("summary", SummaryStep, Final)]
  }

  /** Only the summary ends the wizard when no fragment is final. */
  lemma SummaryIsOnlyFinalStep(selectedType: Option<string>, fragments: seq<Step>)
    requires forall k :: 0 <= k < |fragments| ==> !fragments[k].next.Final?
    ensures forall k :: 0 <= k < |AssembleSteps(selectedType, fragments)| ==>
      (AssembleSteps(selectedType, fragments)[k].next.Final? <==> k == |fragments| + 2)
  {
    var r := AssembleSteps(selectedType, fragments);
    assert forall k :: 2 <= k < |r| - 1 ==> r[k] == fragments[k - 2];
  }
}
